=== FILE: README.md ===
# kpt deployer: a Dafny model

This project models the decision logic of skaffold's kpt deployer
(`pkg/skaffold/deploy/kpt.go`). The deployer hydrates manifests with
`kpt fn source`, `kpt fn sink`, `kustomize build` and `kpt fn run`. It keeps
kpt function configurations out of what is deployed, then deploys with
`kpt live init` and `kpt live apply`.

The modules are:

- `Results` and `Strs`: error values, and Go's `strings.Split`/`strings.Join` for a one-character separator.
- `KptConfig`: the deployer's configuration records and constants.
- `KptArgs`: the argument vectors handed to `kpt`. `kptCommandArgs` is related to Go's `strings.Split`/`strings.Join`: re-joined, the vector is the command line, and it is the per-element split of its inputs. The three flag builders (`getKptFnRunArgs`, `getKptLiveApplyArgs`, `getKptLiveInitArgs`) each have a positional parser over a flag schema, and a round-trip lemma says the parser reads back exactly the configuration.
- `Manifests`: `ExcludeKptFn` over parsed documents.
- `StringSets`: the string set `Dependencies` collects into, kept as a list sorted in Go's string order.
- `Deps`: `getResources` and `Dependencies`, over a file system given as a walk listing.
- `ApplyDir`: `getApplyDir` as a transition on a workspace. The workspace is the set of existing paths plus the log of `kpt` invocations.
- `Render`: the stage skeleton of `renderManifests`. Every external stage is an input. The model fixes:
  - the order of the stages, and that each stage receives the previous stage's output
  - which stages run: everything up to and including the first failure
  - the context each error is wrapped with
  - the early return on empty function output

Subprocesses, the file system and the YAML codec are inputs, not modelled:

- what `kpt fn run` printed is a parameter
- whether `.kpt-hydrated` can be created, and whether `kpt live init` succeeds, are parameters (`Outcomes`)
- whether the configuration directory exists is the `DirListing`

Where the tests and the code disagree, the model follows the code:

- `kpt_test.go` expects the function path to be walked, so `Fn.FnPath: "."` yields the YAML files beneath it.
- `Dependencies` inserts `FnPath` verbatim (`kpt.go:106-108`), and so does the model (`Deps.DependenciesKeepFnPath`).
- The test file also belongs to a later package layout (`pkg/skaffold/deploy/kpt/`).

The string set behind `Dependencies` (`newStringSet`, `insert`, `toList`) is defined outside `kpt.go`, so it is not modelled from its code. The tests compare its listing order-sensitively against lists in Go's string order (`kpt_test.go:345-369`, where `Kustomization` precedes `app1.properties`). The model therefore keeps the set as a strictly sorted list, and `StringSets.SortedUnique` shows that this listing depends only on the set's elements.

## Model

| member | source | states |
|---|---|---|
| Strs.Split | pkg/skaffold/deploy/kpt.go:352-355 | the pieces never contain the separator and re-join to the input; at least one piece, even for the empty string |
| Strs.SplitJoin | pkg/skaffold/deploy/kpt.go:352-370 | splitting a joined non-empty list gives the pieces of each element, in order |
| Strs.SplitJoinInverse | pkg/skaffold/deploy/kpt.go:411 | a list of separator-free strings is recovered from its join |
| Strs.JoinSplitAll | pkg/skaffold/deploy/kpt.go:352-370 | re-joining all pieces of a list gives the list's own join; the pieces are empty iff the list is |
| KptArgs.KptCommandArgs | pkg/skaffold/deploy/kpt.go:349-372 | re-joined with spaces, the vector is the command line commands, directory (only if non-empty), flags, global flags; only the directory can still contain a space; empty iff all four inputs are empty |
| KptArgs.KptCommandArgsAreWords | pkg/skaffold/deploy/kpt.go:349-372 | when the directory has no space, the vector is exactly the space-split words of that command line |
| KptArgs.KptCommandArgsOfWords | pkg/skaffold/deploy/kpt.go:349-372 | space-free tokens pass through unchanged, in the order commands, directory, flags, global flags |
| KptArgs.KptCommandArgsSplitsEach | pkg/skaffold/deploy/kpt.go:349-372 | for all inputs, the vector is every command split on spaces, the directory as one word when non-empty, then every flag and global flag split on spaces |
| KptArgs.KptCommandArgsCompose | pkg/skaffold/deploy/kpt.go:349-372 | the vector is the vector of the commands alone, the directory, then the vector of the flags and global flags alone |
| KptArgs.KptCommandArgsSpacedDir | pkg/skaffold/deploy/kpt.go:353-360 | a directory `x y` stays one word while a command `x y` becomes `x`, `y` |
| KptArgs.KptCommandArgsExample | pkg/skaffold/deploy/kpt/kpt_test.go:899-905 | `live apply`, `test`, `--fn-path kpt-func.yaml`, `-h` give `live apply test --fn-path kpt-func.yaml -h` |
| KptArgs.KptCommandArgsEmpty | pkg/skaffold/deploy/kpt/kpt_test.go:895-897 | four empty inputs give the empty vector |
| KptArgs.ParseEmit | pkg/skaffold/deploy/kpt.go:401-477 | for a schema with distinct names, the positional parser reads back every flag value the emitter wrote |
| KptArgs.ParseDetermines | pkg/skaffold/deploy/kpt.go:401-477 | the parser accepts only emitted vectors: a parsed vector is exactly the emission of the values read, so a builder's parsed vector fixes every word and its order |
| KptArgs.EmitInjective | pkg/skaffold/deploy/kpt.go:401-477 | two value lists that emit the same vector under a schema with distinct names are equal |
| KptArgs.GetKptFnRunArgs | pkg/skaffold/deploy/kpt.go:401-439 | error exactly when both fn-path and image are set, with the message ``only one of `fn-path` or `image` may be specified``; otherwise the vector starts with `--dry-run`, and parsing it back gives global-scope, mount (comma-joined), network, network-name, fn-path and image as configured |
| KptArgs.FnRunArgsSingleSource | pkg/skaffold/deploy/kpt.go:420-436 | a successful vector never carries both `--fn-path` and `--image` |
| KptArgs.MountJoinExample | pkg/skaffold/deploy/kpt/kpt_test.go:760-769 | the mounts `foo`, ``, `bar` become `foo,,bar` and split back to the same list |
| KptArgs.MountRecoverable | pkg/skaffold/deploy/kpt.go:410-412 | mounts without commas are recovered by splitting the `--mount` value |
| KptArgs.GetKptLiveApplyArgs | pkg/skaffold/deploy/kpt.go:441-462 | parsing the vector back gives exactly poll-period, prune-propagation-policy, prune-timeout and reconcile-timeout, each present iff non-empty; two words per set option |
| KptArgs.LiveApplyArgsExample | pkg/skaffold/deploy/kpt/kpt_test.go:195-211 | the values `foo` and `bar` are passed through unvalidated |
| KptArgs.GetKptLiveInitArgs | pkg/skaffold/deploy/kpt.go:464-477 | parsing the vector back gives exactly inventory-id and namespace, each present iff non-empty; two words per set value |
| Manifests.ExcludeKptFn | pkg/skaffold/deploy/kpt.go:283-320 | error iff some document does not parse; otherwise same length and order, non-function documents and functions already carrying `local-config` unchanged, every other function gains `local-config: "true"` with its other annotations and content kept |
| Manifests.ExcludeKptFnIdempotent | pkg/skaffold/deploy/kpt.go:295-305 | the filter applied to its own output changes nothing |
| Manifests.ExcludeKptFnExample | pkg/skaffold/deploy/kpt/kpt_test.go:1003-1033 | a bare function gains `local-config: "true"`; a function with `"false"` and a pod pass through |
| Deps.Base | pkg/skaffold/deploy/kpt.go:385 | `filepath.Base`: never empty; when the path without its trailing slashes is non-empty, the result is its last element, the suffix after its last slash; `.` for the empty path and `/` for a path of slashes |
| Deps.GetResources | pkg/skaffold/deploy/kpt.go:374-398 | error iff the root does not exist, with `os.Stat`'s text `stat <root>: no such file or directory`; otherwise exactly the walked non-directory paths whose base name ends in `.yaml` or `.yml`, listed by `ResourcePaths` in walk order |
| Deps.ResourcePathsAppend | pkg/skaffold/deploy/kpt.go:382-395 | the walk appends each visited resource once, at its place: the listing of two walks in sequence is the first's listing followed by the second's |
| Deps.IsResourceExamples | pkg/skaffold/deploy/kpt.go:385-389 | `foo.yaml` and `bar.yml` are resources; `README.md` and a directory are not |
| StringSets.InsertOne | pkg/skaffold/deploy/kpt.go:106-108 | inserting a path into the sorted set keeps it strictly sorted and adds exactly that path |
| StringSets.InsertAll | pkg/skaffold/deploy/kpt.go:116-124 | inserting several paths keeps the set strictly sorted and holds exactly the union |
| StringSets.SortedUnique | pkg/skaffold/deploy/kpt.go:126 | two strictly sorted lists with the same elements are equal, so the listing does not depend on insertion order |
| Deps.Dependencies | pkg/skaffold/deploy/kpt.go:103-127 | error iff the directory is missing (exactly `finding dependencies in <dir>: stat <dir>: no such file or directory`) or the kustomization cannot be read (exactly `finding kustomization directly under <dir>: ` followed by its error); otherwise a strictly sorted list of exactly the non-empty fn-path, the resources and the kustomization inputs |
| Deps.CollectDependencies | pkg/skaffold/deploy/kpt.go:106-126 | the string set filled with the non-empty fn-path, the resources and the kustomization inputs lists each of them, and nothing else, once, in Go's string order |
| Deps.DependenciesDistinct | pkg/skaffold/deploy/kpt.go:104-126 | the listing holds no path twice |
| Deps.DependenciesExample | pkg/skaffold/deploy/kpt/kpt_test.go:260-270 | a directory holding `foo.yaml` and `README.md` depends on exactly `[foo.yaml]` |
| Deps.DependenciesOfTwo | pkg/skaffold/deploy/kpt.go:111-126 | two paths, from the walk or the kustomization, are listed in string order whatever order they arrive in |
| Deps.DependenciesSortedExample | pkg/skaffold/deploy/kpt/kpt_test.go:344-351 | a walked `kustomization.yaml` and its input `app1.properties` list as `[app1.properties, kustomization.yaml]` |
| Deps.DependenciesCaseOrderExample | pkg/skaffold/deploy/kpt/kpt_test.go:362-369 | in a directory holding the file `Kustomization`, which is not a resource, `Kustomization` lists before `app1.properties` |
| Deps.DependenciesKeepFnPath | pkg/skaffold/deploy/kpt.go:106-108 | a configured fn-path is always a dependency, verbatim |
| ApplyDir.GetApplyDir | pkg/skaffold/deploy/kpt.go:322-346 | an explicit directory is returned iff it exists, and nothing changes either way. Without one, creating a missing `.kpt-hydrated` may fail, and then nothing changes; otherwise `kpt live init` runs iff the inventory template is absent, the call fails iff that init fails, and success leaves `.kpt-hydrated` and its template in place. No call creates any other path, and a failed call never records the template |
| ApplyDir.GetApplyDirIdempotent | pkg/skaffold/deploy/kpt.go:322-346 | after a successful call, a second call returns the same directory and changes nothing (no second init) |
| ApplyDir.FreshProjectInitializesOnce | pkg/skaffold/deploy/kpt/kpt_test.go:836-856 | two calls on an empty project run `kpt live init .kpt-hydrated` exactly once |
| ApplyDir.LiveInitCommandExample | pkg/skaffold/deploy/kpt/kpt_test.go:841-851 | inventory id and namespace give `live init .kpt-hydrated --inventory-id … --namespace foo` |
| ApplyDir.ExplicitDirNeverCreated | pkg/skaffold/deploy/kpt.go:325-329 | a missing explicit directory is an error and is not created |
| ApplyDir.InitializedDirReused | pkg/skaffold/deploy/kpt/kpt_test.go:853-856 | a `.kpt-hydrated` that already holds the template is returned with nothing created or run |
| Render.RunFunctions | pkg/skaffold/deploy/kpt.go:262-268 | a flag error is reported as `getting kpt fn run args: ` followed by the builder's error, before anything runs; otherwise the output of `kpt fn run` is used |
| Render.ApplyTransforms | pkg/skaffold/deploy/kpt.go:204-209 | success runs all transforms; a failure stops the loop with `unable to transform manifests: …` |
| Render.ApplyTransformsSingle | pkg/skaffold/deploy/kpt.go:204-209 | one transform yields its output, or its error wrapped with `unable to transform manifests: ` |
| Render.ApplyTransformsAppend | pkg/skaffold/deploy/kpt.go:204-209 | running `fs + gs` is running `fs`, then, only if that succeeded, `gs` on its output; with the single-step lemma this makes the loop a left fold that stops at the first error |
| Render.IdentityTransforms | pkg/skaffold/deploy/kpt.go:204-209 | transforms that change nothing leave the manifests unchanged, and all of them run |
| Render.Finish | pkg/skaffold/deploy/kpt.go:192-211 | after `kpt fn run`: the filter gets the function output, image replacement gets the filtered list, the transforms get the replaced list, labelling gets the transformed list and its outcome is the result; an error at a stage means every earlier stage succeeded, and it carries that stage's context and cause |
| Render.PreparationError | pkg/skaffold/deploy/kpt.go:160-182 | a preparation failure starts with its stage's context and ends with the cause; the work-directory errors are exactly the context, `.pipeline/<dir>: ` and the cause |
| Render.RenderFromFunctions | pkg/skaffold/deploy/kpt.go:184-211 | once preparation succeeded: a `kpt fn run` error ends the run at that stage, empty output gives an empty list, and otherwise the finishing stages run on the output |
| Render.RenderManifests | pkg/skaffold/deploy/kpt.go:159-212 | a render attempts a prefix of the plan. It gets past preparation iff every preparation stage succeeded, and otherwise fails at the first failed stage with that stage's error. Once preparation succeeded, a `kpt fn run` error ends the run there, empty output returns an empty list, and otherwise the result is that of the finishing stages on the output. Every error starts with the context of the last stage attempted |
| Render.SinkFailureStopsRender | pkg/skaffold/deploy/kpt.go:176-178 | a failing `kpt fn sink` after a good source ends the render at the fifth stage with `reading config manifests: ` and the cause |
| Render.EmptyOutputShortCircuits | pkg/skaffold/deploy/kpt.go:189-191 | no documents from `kpt fn run` returns an empty list right after it |
| Render.BothFunctionSourcesFail | pkg/skaffold/deploy/kpt.go:264-268 | fn-path and image together fail at the `kpt fn run` stage, with `running kpt functions: getting kpt fn run args: …` |
| Render.SettledOutputPassesThrough | pkg/skaffold/deploy/kpt.go:185-211 | output with no function configurations, run through rewrites that change nothing, comes back as `kpt fn run` printed it, after the whole plan |

## Left out

- Running processes (`kpt`, `kustomize`), their stdout, stderr and exit codes: these are inputs (`Outcomes`, `Externals`, `DirListing`).
- Real file-system calls (`os.Stat`, `os.MkdirAll`, `os.RemoveAll`, `filepath.Walk`): these are modelled as a set of existing paths or a walk listing. Stat errors other than "does not exist" are not modelled. Neither are walk callback errors; the regex always compiles.
- `filepath.Join` cleaning (e.g. of `./config` or an empty directory). `Render.Workdir` concatenates with `/`.
- The YAML and JSON codec in `ExcludeKptFn`:
  - a document is already parsed into annotations and a body, or is `Malformed`
  - marshalling errors after a rewrite are not modelled, because they cannot occur for a map of strings
  - the re-encoded bytes are not modelled, and neither is `ManifestList.Append` re-splitting them on `---`
- Manifests.ExcludeKptFn: the error message names the first malformed document, not the unmarshal error text.
- `newStringSet`, `insert` and `toList` are defined outside `kpt.go`. Their listing is modelled as sorted in Go's string order, which is what the tests expect.
- `dependenciesForKustomization` and `findKustomizationConfig` are inputs: the kustomization's inputs, and whether a kustomization exists. `buildCommandArgs` is not part of this model.
- The internals of `ReplaceImages`, `SetLabels`, the registered manifest transforms, `GetDebugHelpersRegistry` and `kpt fn source`/`sink` are inputs to `Render`.
- `kustomizeBuild` is one stage: its build, dependency lookup and `.pipeline` clean-up fail as one.
- `NewKptDeployer`, `Deploy`, `Cleanup`, `Render` (the writer wrapper), `ManifestList.CollectNamespaces` and event reporting are left out. They only wire the modelled operations to processes, writers and the event bus.
- Context cancellation and concurrency do not occur in the modelled logic.
- ApplyDir.GetApplyDir: error texts for a missing directory, a failed mkdir and a failed `kpt live init` are fixed strings. The model does not carry the operating system's messages.
- ApplyDir.GetApplyDir: the workspace does not tell files from directories, so `os.MkdirAll` failing because a file named `.kpt-hydrated` exists is not modelled. Only creating a missing directory can fail.

=== FILE: applydir.dfy ===
/** `getApplyDir`: choosing, and on first use initializing, the directory in
    which `kpt live` keeps its inventory. The file system is a set of
    existing paths; every `kpt` invocation is recorded by its argument
    vector. */
module ApplyDir {
  import opened Results
  import opened KptConfig
  import opened KptArgs

  /** The part of the world `getApplyDir` reads and changes. */
  datatype Workspace = Workspace(existing: set<string>, invocations: seq<seq<string>>)

  /** How the external operations turn out: creating a missing
      `.kpt-hydrated` (`os.MkdirAll` succeeds at once when it exists) and
      running `kpt live init`. */
  datatype Outcomes = Outcomes(mkdirSucceeds: bool, initSucceeds: bool)

  datatype Step = Step(result: Result<string>, after: Workspace)

  /** The `kpt live init` command for the hidden directory. */
  function LiveInitCommand(inv: KptApplyInventory): seq<string> {
    KptCommandArgs(KptHydrated, ["live", "init"], GetKptLiveInitArgs(inv), [])
  }

  /** `getApplyDir`. An explicit directory is returned when it exists and is
      an error otherwise; either way nothing is created or run. Without one,
      `.kpt-hydrated` is created and `kpt live init` runs exactly when the
      inventory template is not yet there; on success the template exists. */
  function GetApplyDir(live: KptLive, ws: Workspace, out: Outcomes): (s: Step)
    ensures live.apply.dir != "" ==>
      && s.after == ws
      && (s.result.Ok? <==> live.apply.dir in ws.existing)
      && (s.result.Ok? ==> s.result.value == live.apply.dir)
    ensures live.apply.dir == "" && s.result.Ok? ==>
      && s.result.value == KptHydrated
      && {KptHydrated, InventoryMarker} <= s.after.existing
    ensures live.apply.dir == "" && KptHydrated !in ws.existing && !out.mkdirSucceeds ==>
      s.result.Err? && s.after == ws
    ensures live.apply.dir == "" && (KptHydrated in ws.existing || out.mkdirSucceeds) ==>
      && ws.existing + {KptHydrated} <= s.after.existing
      && s.after.invocations == ws.invocations
           + (if InventoryMarker in ws.existing then [] else [LiveInitCommand(live.apply)])
      && (s.result.Err? <==> InventoryMarker !in ws.existing && !out.initSucceeds)
    ensures s.after.existing <= ws.existing + {KptHydrated, InventoryMarker}
    ensures s.result.Err? ==> (InventoryMarker in s.after.existing <==> InventoryMarker in ws.existing)
  {
    if live.apply.dir != "" then
      if live.apply.dir !in ws.existing then
        Step(Err("stat " + live.apply.dir + ": no such file or directory"), ws)
      else Step(Ok(live.apply.dir), ws)
    else if KptHydrated !in ws.existing && !out.mkdirSucceeds then
      Step(Err("applyDir was unspecified. creating applyDir: mkdir " + KptHydrated), ws)
    else
      var created := ws.(existing := ws.existing + {KptHydrated});
      if InventoryMarker in created.existing then Step(Ok(KptHydrated), created)
      else
        var ran := created.(invocations := created.invocations + [LiveInitCommand(live.apply)]);
        if !out.initSucceeds then Step(Err("kpt live init failed"), ran)
        else Step(Ok(KptHydrated), ran.(existing := ran.existing + {InventoryMarker}))
  }

  /** Once the call has succeeded, calling again returns the same directory
      and changes nothing: no second `kpt live init`. */
  lemma GetApplyDirIdempotent(live: KptLive, ws: Workspace, out: Outcomes)
    requires GetApplyDir(live, ws, out).result.Ok?
    ensures var first := GetApplyDir(live, ws, out);
      GetApplyDir(live, first.after, out) == first
  {
    var first := GetApplyDir(live, ws, out);
    if live.apply.dir == "" {
      assert InventoryMarker in first.after.existing;
      assert first.after.existing + {KptHydrated} == first.after.existing;
    }
  }

  /** Two calls on a fresh project create the hidden directory and run
      `kpt live init` exactly once. */
  lemma FreshProjectInitializesOnce(live: KptLive, out: Outcomes)
    requires live.apply.dir == "" && out.mkdirSucceeds && out.initSucceeds
    ensures var first := GetApplyDir(live, Workspace({}, []), out);
      var second := GetApplyDir(live, first.after, out);
      && second.result == Ok(KptHydrated)
      && second.after.invocations == [LiveInitCommand(live.apply)]
  {
    GetApplyDirIdempotent(live, Workspace({}, []), out);
  }

  /** The inventory id and namespace are passed to `kpt live init`. */
  lemma LiveInitCommandExample()
    ensures LiveInitCommand(KptApplyInventory("", "1a23bcde-4f56-7891-a2bc-de34fabcde5f6", "foo"))
         == ["live", "init", ".kpt-hydrated", "--inventory-id", "1a23bcde-4f56-7891-a2bc-de34fabcde5f6", "--namespace", "foo"]
  {
    var inv := KptApplyInventory("", "1a23bcde-4f56-7891-a2bc-de34fabcde5f6", "foo");
    var flags := GetKptLiveInitArgs(inv);
    assert flags == ["--inventory-id", inv.inventoryID, "--namespace", inv.inventoryNamespace];
    InitExampleWords(inv.inventoryID, inv.inventoryNamespace);
    KptCommandArgsOfWords(KptHydrated, ["live", "init"], flags, []);
    InitExampleLine(KptHydrated, flags, inv.inventoryID, inv.inventoryNamespace);
  }

  lemma InitExampleLine(dir: string, flags: seq<string>, id: string, ns: string)
    requires dir == ".kpt-hydrated" && flags == ["--inventory-id", id, "--namespace", ns]
    ensures ["live", "init"] + DirArg(dir) + flags + []
         == ["live", "init", ".kpt-hydrated", "--inventory-id", id, "--namespace", ns]
  {
  }

  lemma InitExampleWords(id: string, ns: string)
    requires id == "1a23bcde-4f56-7891-a2bc-de34fabcde5f6" && ns == "foo"
    ensures ' ' !in "live" && ' ' !in "init" && ' ' !in "--inventory-id" && ' ' !in "--namespace"
    ensures ' ' !in id && ' ' !in ns
  {
  }

  /** A missing explicit directory is never created. */
  lemma ExplicitDirNeverCreated(live: KptLive, ws: Workspace, out: Outcomes)
    requires live.apply.dir != "" && live.apply.dir !in ws.existing
    ensures GetApplyDir(live, ws, out).result.Err?
    ensures live.apply.dir !in GetApplyDir(live, ws, out).after.existing
  {
  }

  /** A hidden directory that already holds the inventory template is reused
      as it is: no directory is created and no `kpt live init` runs, however
      the external operations would turn out. */
  lemma InitializedDirReused(live: KptLive, ws: Workspace, out: Outcomes)
    requires live.apply.dir == ""
    requires KptHydrated in ws.existing && InventoryMarker in ws.existing
    ensures GetApplyDir(live, ws, out) == Step(Ok(KptHydrated), ws)
  {
    assert ws.existing + {KptHydrated} == ws.existing;
  }
}

=== FILE: deps.dfy ===
/** The files the deployer watches: every YAML file under the configuration
    directory, the function path, and the kustomization's inputs. The file
    system is abstracted to what `os.Stat` and `filepath.Walk` report. */
module Deps {
  import opened Results
  import opened Strs
  import opened KptConfig
  import opened StringSets

  /** One path visited by `filepath.Walk`. */
  datatype Entry = Entry(path: string, isDir: bool)

  /** What the file system says about a root: it does not exist, or walking
      it visits these entries (the root included) in walk order. */
  datatype DirListing = Missing | Listing(entries: seq<Entry>)

  /** `path` with every trailing slash removed. */
  function TrimTrailingSlashes(path: string): (t: string)
    ensures |t| <= |path| && t == path[..|t|]
    ensures |t| == 0 || t[|t| - 1] != '/'
    ensures forall i :: |t| <= i < |path| ==> path[i] == '/'
  {
    if |path| > 0 && path[|path| - 1] == '/' then TrimTrailingSlashes(path[..|path| - 1]) else path
  }

  /** The part of `path` after its last slash. */
  function LastSegment(path: string): (seg: string)
    ensures '/' !in seg
    ensures EndsWith(path, seg)
    ensures |seg| == |path| || path[|path| - |seg| - 1] == '/'
  {
    if |path| == 0 || path[|path| - 1] == '/' then ""
    else LastSegment(path[..|path| - 1]) + [path[|path| - 1]]
  }

  /** A path without slashes is its own last segment. */
  lemma {:induction false} LastSegmentOfName(name: string)
    requires '/' !in name
    ensures LastSegment(name) == name
  {
    if |name| > 0 {
      var init := name[..|name| - 1];
      assert '/' !in init;
      LastSegmentOfName(init);
      assert name == init + [name[|name| - 1]];
    }
  }

  /** A non-empty name without slashes is its own base name. */
  lemma BaseOfName(name: string)
    requires name != "" && '/' !in name
    ensures Base(name) == name
  {
    LastSegmentOfName(name);
  }

  /** `filepath.Base`: the last element of the path after trailing slashes
      are removed; `.` for the empty path and `/` for a path of slashes. */
  function Base(path: string): (b: string)
    ensures b != ""
    ensures '/' in b ==> b == "/"
    ensures path == "" ==> b == "."
    ensures path != "" && TrimTrailingSlashes(path) == "" ==> b == "/"
    ensures var t := TrimTrailingSlashes(path);
      t != "" ==> EndsWith(t, b) && (|b| == |t| || t[|t| - |b| - 1] == '/')
  {
    if path == "" then "."
    else
      var t := TrimTrailingSlashes(path);
      if t == "" then "/" else LastSegment(t)
  }

  /** The name matches the regular expression `\.ya?ml$`. */
  predicate HasYamlExt(name: string) {
    EndsWith(name, ".yaml") || EndsWith(name, ".yml")
  }

  /** A walked path is a resource when it is not a directory and its base
      name has a YAML extension. */
  predicate IsResource(e: Entry) {
    !e.isDir && HasYamlExt(Base(e.path))
  }

  /** The paths of the resources among `entries`, in walk order: a walk of
      one entry lists its path when it is a resource, and `ResourcePathsAppend`
      shows that a longer walk lists its parts one after the other, so every
      resource is listed once, at its place in the walk. */
  function ResourcePaths(entries: seq<Entry>): (paths: seq<string>)
    ensures |paths| <= |entries|
    ensures |entries| == 1 ==> paths == if IsResource(entries[0]) then [entries[0].path] else []
    ensures forall p :: p in paths <==> exists e :: e in entries && e.path == p && IsResource(e)
  {
    if |entries| == 0 then []
    else
      var rest := ResourcePaths(entries[1..]);
      assert forall e :: e in entries <==> e == entries[0] || e in entries[1..];
      if IsResource(entries[0]) then [entries[0].path] + rest else rest
  }

  /** The walk lists the resources of a concatenation part by part. */
  lemma {:induction false} ResourcePathsAppend(a: seq<Entry>, b: seq<Entry>)
    ensures ResourcePaths(a + b) == ResourcePaths(a) + ResourcePaths(b)
    decreases |a|
  {
    if |a| > 0 {
      assert (a + b)[0] == a[0] && (a + b)[1..] == a[1..] + b;
      ResourcePathsAppend(a[1..], b);
    } else {
      assert a + b == b;
    }
  }

  /** `getResources` on the directory `path`: an error exactly when the root
      does not exist (an empty root is not an error), carrying `os.Stat`'s
      text; otherwise the paths of exactly the resources the walk visits, in
      walk order. */
  function GetResources(path: string, root: DirListing): (r: Result<seq<string>>)
    ensures r.Err? <==> root.Missing?
    ensures r.Err? ==> r.msg == "stat " + path + ": no such file or directory"
    ensures r.Ok? ==> root.Listing? && forall p :: p in r.value <==>
      exists e :: e in root.entries && e.path == p && IsResource(e)
    ensures r.Ok? ==> r.value == ResourcePaths(root.entries)
  {
    match root
    case Missing => Err("stat " + path + ": no such file or directory")
    case Listing(entries) => Ok(ResourcePaths(entries))
  }

  /** `Dependencies`: an error exactly when the configuration directory does
      not exist or its kustomization cannot be read. Otherwise the string
      set's listing: sorted in Go's string order, without duplicates, holding
      the function path (when set, verbatim), the resources under the
      directory and the kustomization's dependencies, and nothing else. */
  function Dependencies(k: KptDeploy, dir: DirListing, kustomizeDeps: Result<seq<string>>): (r: Result<seq<string>>)
    ensures r.Err? <==> dir.Missing? || kustomizeDeps.Err?
    ensures dir.Missing? ==> r.Err? && StartsWith(r.msg, "finding dependencies in " + k.dir + ": ")
    ensures dir.Missing? ==>
      r == Err("finding dependencies in " + k.dir + ": stat " + k.dir + ": no such file or directory")
    ensures dir.Listing? && kustomizeDeps.Err? ==>
      r.Err? && StartsWith(r.msg, "finding kustomization directly under " + k.dir + ": ")
    ensures dir.Listing? && kustomizeDeps.Err? ==>
      r == Err("finding kustomization directly under " + k.dir + ": " + kustomizeDeps.msg)
    ensures r.Ok? ==> StrictlySorted(r.value)
    ensures r.Ok? ==> dir.Listing? && kustomizeDeps.Ok? && forall p :: p in r.value <==>
      || (p == k.fn.fnPath && p != "")
      || (exists e :: e in dir.entries && e.path == p && IsResource(e))
      || p in kustomizeDeps.value
  {
    var configDeps := GetResources(k.dir, dir);
    if configDeps.Err? then Err("finding dependencies in " + k.dir + ": " + configDeps.msg)
    else if kustomizeDeps.Err? then Err("finding kustomization directly under " + k.dir + ": " + kustomizeDeps.msg)
    else Ok(CollectDependencies(k.fn.fnPath, configDeps.value, kustomizeDeps.value))
  }

  /** The string set filled as `Dependencies` fills it: the function path
      when set, then the resources, then the kustomization's inputs. */
  function CollectDependencies(fnPath: string, resources: seq<string>, kustomize: seq<string>): (deps: seq<string>)
    ensures StrictlySorted(deps)
    ensures forall p :: p in deps <==> (p == fnPath && p != "") || p in resources || p in kustomize
  {
    var withFn := if |fnPath| > 0 then InsertOne([], fnPath) else [];
    InsertAll(InsertAll(withFn, resources), kustomize)
  }

  /** The listing holds no path twice. */
  lemma DependenciesDistinct(k: KptDeploy, dir: DirListing, kustomizeDeps: Result<seq<string>>)
    requires Dependencies(k, dir, kustomizeDeps).Ok?
    ensures var deps := Dependencies(k, dir, kustomizeDeps).value;
      forall i, j :: 0 <= i < j < |deps| ==> deps[i] != deps[j]
  {
    SortedDistinct(Dependencies(k, dir, kustomizeDeps).value);
  }

  /** The resource test on names: `foo.yaml` and `bar.yml` are resources,
      `README.md` and a directory are not. */
  lemma IsResourceExamples()
    ensures IsResource(Entry("foo.yaml", false))
    ensures IsResource(Entry("bar.yml", false))
    ensures !IsResource(Entry("README.md", false))
    ensures !IsResource(Entry("foo.yaml", true))
  {
    ExampleNames("foo.yaml", "bar.yml", "README.md");
    BaseOfName("foo.yaml");
    BaseOfName("bar.yml");
    BaseOfName("README.md");
  }

  lemma ExampleNames(foo: string, bar: string, readme: string)
    requires foo == "foo.yaml" && bar == "bar.yml" && readme == "README.md"
    ensures '/' !in foo && '/' !in bar && '/' !in readme
    ensures HasYamlExt(foo) && HasYamlExt(bar) && !HasYamlExt(readme)
  {
    assert foo[|foo| - 5..] == ".yaml";
    assert bar[|bar| - 4..] == ".yml";
    assert readme[|readme| - 5..] != ".yaml";
    assert readme[|readme| - 4..] != ".yml";
  }

  /** A directory holding `foo.yaml` and `README.md` depends on just
      `foo.yaml`. */
  lemma DependenciesExample(k: KptDeploy)
    requires k.fn.fnPath == ""
    ensures Dependencies(k, Listing([Entry(".", true), Entry("README.md", false), Entry("foo.yaml", false)]), Ok([]))
         == Ok(["foo.yaml"])
  {
    IsResourceExamples();
    var r := Dependencies(k, Listing([Entry(".", true), Entry("README.md", false), Entry("foo.yaml", false)]), Ok([]));
    SortedUnique(r.value, ["foo.yaml"]);
  }

  /** Two paths, found by the walk or named by the kustomization, are
      listed in order whatever order they were found in. */
  lemma DependenciesOfTwo(k: KptDeploy, root: DirListing, a: string, b: string)
    requires k.fn.fnPath == "" && Less(a, b) && root.Listing?
    requires forall e :: e in root.entries && IsResource(e) ==> e.path == a || e.path == b
    ensures Dependencies(k, root, Ok([b, a])) == Ok([a, b])
  {
    var r := Dependencies(k, root, Ok([b, a]));
    assert forall p :: p in r.value <==> p == a || p == b;
    SortedUnique(r.value, [a, b]);
  }

  /** The listing is sorted whatever the insertion order: a kustomization
      file found by the walk and its input come out input first. */
  lemma DependenciesSortedExample(k: KptDeploy)
    requires k.fn.fnPath == ""
    ensures Dependencies(k, Listing([Entry(".", true), Entry("kustomization.yaml", false)]),
                         Ok(["kustomization.yaml", "app1.properties"]))
         == Ok(["app1.properties", "kustomization.yaml"])
  {
    KustomizationNames("kustomization.yaml", "app1.properties");
    DependenciesOfTwo(k, Listing([Entry(".", true), Entry("kustomization.yaml", false)]),
      "app1.properties", "kustomization.yaml");
  }

  lemma KustomizationNames(kust: string, app: string)
    requires kust == "kustomization.yaml" && app == "app1.properties"
    ensures IsResource(Entry(kust, false))
    ensures Less(app, kust)
  {
    assert kust[|kust| - 5..] == ".yaml";
    BaseOfName(kust);
  }

  lemma CapitalKustomizationName(kust: string)
    requires kust == "Kustomization"
    ensures !IsResource(Entry(kust, false))
  {
    assert kust[|kust| - 5..] != ".yaml";
    assert kust[|kust| - 4..] != ".yml";
    BaseOfName(kust);
  }

  /** Upper case sorts before lower case: `Kustomization` is listed before
      `app1.properties`. */
  lemma DependenciesCaseOrderExample(k: KptDeploy)
    requires k.fn.fnPath == ""
    ensures Dependencies(k, Listing([Entry(".", true), Entry("Kustomization", false)]),
                         Ok(["app1.properties", "Kustomization"]))
         == Ok(["Kustomization", "app1.properties"])
  {
    assert Less("Kustomization", "app1.properties");
    CapitalKustomizationName("Kustomization");
    DependenciesOfTwo(k, Listing([Entry(".", true), Entry("Kustomization", false)]),
      "Kustomization", "app1.properties");
  }

  /** The function path is watched as written, even when it names a
      directory the walk also covers. */
  lemma DependenciesKeepFnPath(k: KptDeploy, root: DirListing, kustomizeDeps: Result<seq<string>>)
    requires k.fn.fnPath != "" && root.Listing? && kustomizeDeps.Ok?
    ensures k.fn.fnPath in Dependencies(k, root, kustomizeDeps).value
  {
  }
}

=== FILE: kptargs.dfy ===
/** Argument vectors handed to the `kpt` executable, and positional parsers
    that read them back. Each builder is paired with its parser by a
    round-trip property: what the builder emits carries every option that
    was set, in the fixed order, and nothing else. */
module KptArgs {
  import opened Results
  import opened Strs
  import opened KptConfig

  /** The directory argument: present only when the path is non-empty. */
  function DirArg(dir: string): seq<string> {
    if |dir| > 0 then [dir] else []
  }

  /** `kptCommandArgs`: every command, flag and global flag is split on single
      spaces; the order is commands, directory, flags, global flags.
      Re-joined with spaces it is the command line the caller wrote; only the
      directory may still hold a space, because it is never split. */
  function KptCommandArgs(dir: string, commands: seq<string>, flags: seq<string>, globalFlags: seq<string>): (args: seq<string>)
    ensures Join(args, ' ') == Join(commands + DirArg(dir) + flags + globalFlags, ' ')
    ensures forall i :: 0 <= i < |args| && ' ' in args[i] ==> args[i] == dir
    ensures |args| == 0 <==> dir == "" && commands == [] && flags == [] && globalFlags == []
  {
    var c := SplitAll(commands, ' ');
    var f := SplitAll(flags, ' ');
    var g := SplitAll(globalFlags, ' ');
    JoinSplitAll(commands, ' ');
    JoinSplitAll(flags, ' ');
    JoinSplitAll(globalFlags, ' ');
    JoinSame(c, commands, DirArg(dir), DirArg(dir));
    JoinSame(c + DirArg(dir), commands + DirArg(dir), f, flags);
    JoinSame(c + DirArg(dir) + f, commands + DirArg(dir) + flags, g, globalFlags);
    SplitAllNoSpace(commands);
    SplitAllNoSpace(flags);
    SplitAllNoSpace(globalFlags);
    c + DirArg(dir) + f + g
  }

  /** Lists with equal joins and equal emptiness have concatenations with
      equal joins and equal emptiness. */
  lemma JoinSame(a: seq<string>, a': seq<string>, b: seq<string>, b': seq<string>)
    requires Join(a, ' ') == Join(a', ' ') && (|a| == 0 <==> |a'| == 0)
    requires Join(b, ' ') == Join(b', ' ') && (|b| == 0 <==> |b'| == 0)
    ensures Join(a + b, ' ') == Join(a' + b', ' ')
  {
    if |a| == 0 {
      assert a + b == b;
      assert a' + b' == b';
    } else if |b| == 0 {
      assert a + b == a && a' + b' == a';
    } else {
      JoinAppend(a, b, ' ');
      JoinAppend(a', b', ' ');
    }
  }

  lemma {:induction false} SplitAllNoSpace(xs: seq<string>)
    ensures forall i :: 0 <= i < |SplitAll(xs, ' ')| ==> ' ' !in SplitAll(xs, ' ')[i]
  {
    if |xs| > 0 {
      SplitAllNoSpace(xs[1..]);
    }
  }

  /** The argument vector is exactly the space-separated words of the command
      line formed by the inputs, whenever the directory holds no space. */
  lemma KptCommandArgsAreWords(dir: string, commands: seq<string>, flags: seq<string>, globalFlags: seq<string>)
    requires ' ' !in dir
    requires |commands + DirArg(dir) + flags + globalFlags| > 0
    ensures KptCommandArgs(dir, commands, flags, globalFlags)
         == Split(Join(commands + DirArg(dir) + flags + globalFlags, ' '), ' ')
  {
    var all := commands + DirArg(dir) + flags + globalFlags;
    SplitJoin(all, ' ');
    SplitAllAppend(commands + DirArg(dir) + flags, globalFlags, ' ');
    SplitAllAppend(commands + DirArg(dir), flags, ' ');
    SplitAllAppend(commands, DirArg(dir), ' ');
    if |dir| > 0 {
      SplitNoSep(dir, ' ');
      assert SplitAll([dir], ' ') == Split(dir, ' ') + SplitAll([], ' ');
    }
  }

  /** Tokens without spaces pass through unchanged and in order. */
  lemma KptCommandArgsOfWords(dir: string, commands: seq<string>, flags: seq<string>, globalFlags: seq<string>)
    requires forall i :: 0 <= i < |commands| ==> ' ' !in commands[i]
    requires forall i :: 0 <= i < |flags| ==> ' ' !in flags[i]
    requires forall i :: 0 <= i < |globalFlags| ==> ' ' !in globalFlags[i]
    ensures KptCommandArgs(dir, commands, flags, globalFlags) == commands + DirArg(dir) + flags + globalFlags
  {
    SplitAllOfAtoms(commands, ' ');
    SplitAllOfAtoms(flags, ' ');
    SplitAllOfAtoms(globalFlags, ' ');
  }

  /** The vector is the split commands, the directory as one word, then
      the split flags and global flags: splitting happens per element and
      the directory is never split, whatever spaces the inputs hold. */
  lemma KptCommandArgsSplitsEach(dir: string, commands: seq<string>, flags: seq<string>, globalFlags: seq<string>)
    ensures KptCommandArgs(dir, commands, flags, globalFlags)
         == SplitAll(commands, ' ') + DirArg(dir) + SplitAll(flags + globalFlags, ' ')
  {
    SplitAllAppend(flags, globalFlags, ' ');
  }

  /** A vector is its command part, the directory, and its flag part. */
  lemma KptCommandArgsCompose(dir: string, commands: seq<string>, flags: seq<string>, globalFlags: seq<string>)
    ensures KptCommandArgs(dir, commands, flags, globalFlags)
         == KptCommandArgs("", commands, [], []) + DirArg(dir) + KptCommandArgs("", flags, globalFlags, [])
  {
    var empty: seq<string> := [];
    assert KptCommandArgs("", commands, empty, empty) == SplitAll(commands, ' ') by {
      KptCommandArgsSplitsEach("", commands, empty, empty);
      assert SplitAll(empty + empty, ' ') == [];
    }
    assert KptCommandArgs("", flags, globalFlags, empty) == SplitAll(flags + globalFlags, ' ') by {
      KptCommandArgsSplitsEach("", flags, globalFlags, empty);
      assert globalFlags + empty == globalFlags && DirArg("") == [];
      SplitAllAppend(flags, globalFlags, ' ');
    }
    KptCommandArgsSplitsEach(dir, commands, flags, globalFlags);
  }

  /** A directory with a space stays one word while a command with the same
      text is split. */
  lemma KptCommandArgsSpacedDir()
    ensures KptCommandArgs("x y", ["x y"], [], []) == ["x", "y", "x y"]
  {
    KptCommandArgsSplitsEach("x y", ["x y"], [], []);
    SplitExample("x y", "x", "y");
  }

  lemma SplitExample(s: string, a: string, b: string)
    requires s == "x y" && a == "x" && b == "y"
    ensures SplitAll([s], ' ') == [a, b]
  {
    assert s == a + [' '] + b;
    SplitAround(a, b, ' ');
    SplitNoSep(a, ' ');
    SplitNoSep(b, ' ');
  }

  lemma ExampleWords()
    ensures ' ' !in "live" && ' ' !in "apply" && ' ' !in "-h"
    ensures ' ' !in "--fn-path" && ' ' !in "kpt-func.yaml" && ' ' !in "test"
  {
  }

  /** The worked example: `live apply test --fn-path kpt-func.yaml -h`. */
  lemma KptCommandArgsExample()
    ensures KptCommandArgs("test", ["live", "apply"], ["--fn-path", "kpt-func.yaml"], ["-h"])
         == ["live", "apply", "test", "--fn-path", "kpt-func.yaml", "-h"]
  {
    ExampleWords();
    KptCommandArgsOfWords("test", ["live", "apply"], ["--fn-path", "kpt-func.yaml"], ["-h"]);
    ExampleLine("test", ["live", "apply"], ["--fn-path", "kpt-func.yaml"], ["-h"]);
  }

  lemma ExampleLine(dir: string, commands: seq<string>, flags: seq<string>, globalFlags: seq<string>)
    requires dir == "test" && commands == ["live", "apply"]
    requires flags == ["--fn-path", "kpt-func.yaml"] && globalFlags == ["-h"]
    ensures commands + DirArg(dir) + flags + globalFlags
         == ["live", "apply", "test", "--fn-path", "kpt-func.yaml", "-h"]
  {
  }

  /** Four empty inputs give an empty vector. */
  lemma KptCommandArgsEmpty()
    ensures KptCommandArgs("", [], [], []) == []
  {
  }

  // ---------------------------------------------------------------------------
  // Flag schemas: the optional flags of a kpt sub-command, in their fixed
  // order, and a positional reader for them.

  datatype FlagSpec = SwitchFlag(name: string) | ValueFlag(name: string)

  /** A flag as read from a vector: absent, a switch that is present, or a
      flag given with its value. */
  datatype FlagValue = Absent | Present | Given(value: string)

  /** No name occurs twice in the schema. */
  predicate DistinctNames(specs: seq<FlagSpec>) {
    forall i, j :: 0 <= i < j < |specs| ==> specs[i].name != specs[j].name
  }

  /** A value has the shape its flag allows. */
  predicate Fits(spec: FlagSpec, v: FlagValue) {
    match v
    case Absent => true
    case Present => spec.SwitchFlag?
    case Given(_) => spec.ValueFlag?
  }

  predicate AllFit(specs: seq<FlagSpec>, vals: seq<FlagValue>) {
    |specs| == |vals| && forall i :: 0 <= i < |specs| ==> Fits(specs[i], vals[i])
  }

  /** The words one flag contributes to a vector. */
  function Words(spec: FlagSpec, v: FlagValue): seq<string> {
    match v
    case Absent => []
    case Present => [spec.name]
    case Given(x) => [spec.name, x]
  }

  /** The words of every flag, in schema order. */
  function Emit(specs: seq<FlagSpec>, vals: seq<FlagValue>): seq<string>
    requires AllFit(specs, vals)
  {
    if |specs| == 0 then [] else Words(specs[0], vals[0]) + Emit(specs[1..], vals[1..])
  }

  /** Reads a vector against a schema: each flag may appear once, at its
      position, a value flag followed by its value; nothing may be left. */
  function ParseFlags(specs: seq<FlagSpec>, args: seq<string>): Option<seq<FlagValue>>
    decreases |specs|
  {
    if |specs| == 0 then
      if |args| == 0 then Some([]) else None
    else if |args| > 0 && args[0] == specs[0].name then
      match specs[0]
      case SwitchFlag(_) =>
        var rest :- ParseFlags(specs[1..], args[1..]);
        Some([Present] + rest)
      case ValueFlag(_) =>
        if |args| < 2 then None
        else
          var rest :- ParseFlags(specs[1..], args[2..]);
          Some([Given(args[1])] + rest)
    else
      var rest :- ParseFlags(specs[1..], args);
      Some([Absent] + rest)
  }

  /** A non-empty emitted vector starts with one of the schema's names. */
  lemma {:induction false} EmitStartsWithName(specs: seq<FlagSpec>, vals: seq<FlagValue>)
    requires AllFit(specs, vals)
    ensures |Emit(specs, vals)| > 0 ==>
      exists k :: 0 <= k < |specs| && Emit(specs, vals)[0] == specs[k].name
  {
    if |specs| > 0 && vals[0].Absent? {
      EmitStartsWithName(specs[1..], vals[1..]);
      var e := Emit(specs[1..], vals[1..]);
      if |e| > 0 {
        var k :| 0 <= k < |specs[1..]| && e[0] == specs[1..][k].name;
        assert Emit(specs, vals)[0] == specs[k + 1].name;
      }
    }
  }

  /** Reading back an emitted vector recovers every flag's value. */
  lemma {:induction false} ParseEmit(specs: seq<FlagSpec>, vals: seq<FlagValue>)
    requires AllFit(specs, vals) && DistinctNames(specs)
    ensures ParseFlags(specs, Emit(specs, vals)) == Some(vals)
  {
    if |specs| > 0 {
      ParseEmit(specs[1..], vals[1..]);
      if vals[0].Absent? {
        ParseEmitAbsent(specs, vals);
      } else {
        ParseEmitPresent(specs, vals);
      }
    }
  }

  /** The parser accepts only emitted vectors: whatever it reads, the vector
      is exactly the emission of the values it returns. With `ParseEmit`
      this makes `Emit` injective, so a parsed vector fixes every word and
      its order. */
  lemma {:induction false} ParseDetermines(specs: seq<FlagSpec>, args: seq<string>, vals: seq<FlagValue>)
    requires ParseFlags(specs, args) == Some(vals)
    ensures AllFit(specs, vals) && args == Emit(specs, vals)
    decreases |specs|
  {
    if |specs| > 0 {
      if |args| > 0 && args[0] == specs[0].name {
        if specs[0].SwitchFlag? {
          var rest := ParseFlags(specs[1..], args[1..]).value;
          ParseDetermines(specs[1..], args[1..], rest);
          assert vals == [Present] + rest;
          assert args == [args[0]] + args[1..];
        } else {
          var rest := ParseFlags(specs[1..], args[2..]).value;
          ParseDetermines(specs[1..], args[2..], rest);
          assert vals == [Given(args[1])] + rest;
          assert args == [args[0], args[1]] + args[2..];
        }
      } else {
        var rest := ParseFlags(specs[1..], args).value;
        ParseDetermines(specs[1..], args, rest);
        assert vals == [Absent] + rest;
      }
    }
  }

  /** Two value lists of a schema with distinct names that emit the same
      vector are the same list. */
  lemma EmitInjective(specs: seq<FlagSpec>, v1: seq<FlagValue>, v2: seq<FlagValue>)
    requires DistinctNames(specs) && AllFit(specs, v1) && AllFit(specs, v2)
    requires Emit(specs, v1) == Emit(specs, v2)
    ensures v1 == v2
  {
    ParseEmit(specs, v1);
    ParseEmit(specs, v2);
  }

  lemma ParseEmitAbsent(specs: seq<FlagSpec>, vals: seq<FlagValue>)
    requires AllFit(specs, vals) && DistinctNames(specs) && |specs| > 0 && vals[0].Absent?
    requires ParseFlags(specs[1..], Emit(specs[1..], vals[1..])) == Some(vals[1..])
    ensures ParseFlags(specs, Emit(specs, vals)) == Some(vals)
  {
    var tail := Emit(specs[1..], vals[1..]);
    assert Emit(specs, vals) == tail;
    EmitStartsWithName(specs[1..], vals[1..]);
    if |tail| > 0 {
      var k :| 0 <= k < |specs[1..]| && tail[0] == specs[1..][k].name;
      assert specs[0].name != specs[k + 1].name;
    }
    assert vals == [Absent] + vals[1..];
  }

  lemma ParseEmitPresent(specs: seq<FlagSpec>, vals: seq<FlagValue>)
    requires AllFit(specs, vals) && |specs| > 0 && !vals[0].Absent?
    requires ParseFlags(specs[1..], Emit(specs[1..], vals[1..])) == Some(vals[1..])
    ensures ParseFlags(specs, Emit(specs, vals)) == Some(vals)
  {
    var tail := Emit(specs[1..], vals[1..]);
    var args := Emit(specs, vals);
    if vals[0].Present? {
      assert args[1..] == tail;
      assert vals == [Present] + vals[1..];
    } else {
      assert args[2..] == tail;
      assert vals == [vals[0]] + vals[1..];
    }
  }

  /** A switch that is on or off. */
  function SwitchValue(on: bool): FlagValue {
    if on then Present else Absent
  }

  /** An option that is set when its string is non-empty. */
  function StringValue(s: string): FlagValue {
    if |s| > 0 then Given(s) else Absent
  }

  /** The flag/value pair of a set option, nothing otherwise. */
  function Pair(name: string, value: string): seq<string> {
    if |value| > 0 then [name, value] else []
  }

  // ---------------------------------------------------------------------------
  // kpt fn run

  const FnRunSpecs: seq<FlagSpec> := [
    SwitchFlag("--global-scope"), ValueFlag("--mount"), SwitchFlag("--network"),
    ValueFlag("--network-name"), ValueFlag("--fn-path"), ValueFlag("--image")]

  /** The flags a configuration is expected to produce: the mount list is
      passed as its comma-joined form whenever it is non-empty. */
  function FnRunValues(fn: KptFn): seq<FlagValue> {
    [ SwitchValue(fn.globalScope),
      if |fn.mount| > 0 then Given(Join(fn.mount, ',')) else Absent,
      SwitchValue(fn.network),
      StringValue(fn.networkName),
      StringValue(fn.fnPath),
      StringValue(fn.image) ]
  }

  /** Reads a `kpt fn run` flag vector: `--dry-run`, then the optional flags. */
  function ParseFnRunArgs(args: seq<string>): Option<seq<FlagValue>> {
    if |args| > 0 && args[0] == "--dry-run" then ParseFlags(FnRunSpecs, args[1..]) else None
  }

  /** `getKptFnRunArgs`: the flags of `kpt fn run`. It fails exactly when both
      a function path and an image are configured; otherwise the vector starts
      with `--dry-run` and reads back as the configuration. */
  function GetKptFnRunArgs(fn: KptFn): (r: Result<seq<string>>)
    ensures r.Err? <==> fn.fnPath != "" && fn.image != ""
    ensures r.Err? ==> r.msg == "only one of `fn-path` or `image` may be specified"
    ensures r.Ok? ==> |r.value| > 0 && r.value[0] == "--dry-run"
    ensures r.Ok? ==> ParseFnRunArgs(r.value) == Some(FnRunValues(fn))
  {
    var flags := ["--dry-run"]
      + (if fn.globalScope then ["--global-scope"] else [])
      + (if |fn.mount| > 0 then ["--mount", Join(fn.mount, ',')] else [])
      + (if fn.network then ["--network"] else [])
      + Pair("--network-name", fn.networkName)
      + Pair("--fn-path", fn.fnPath)
      + Pair("--image", fn.image);
    var count := (if |fn.fnPath| > 0 then 1 else 0) + (if |fn.image| > 0 then 1 else 0);
    if count > 1 then Err("only one of `fn-path` or `image` may be specified")
    else
      FnRunArgsEmitted(fn);
      assert flags[1..] == Emit(FnRunSpecs, FnRunValues(fn));
      ParseEmit(FnRunSpecs, FnRunValues(fn));
      Ok(flags)
  }

  lemma FnRunArgsEmitted(fn: KptFn)
    ensures AllFit(FnRunSpecs, FnRunValues(fn))
    ensures ["--dry-run"]
      + (if fn.globalScope then ["--global-scope"] else [])
      + (if |fn.mount| > 0 then ["--mount", Join(fn.mount, ',')] else [])
      + (if fn.network then ["--network"] else [])
      + Pair("--network-name", fn.networkName)
      + Pair("--fn-path", fn.fnPath)
      + Pair("--image", fn.image)
      == ["--dry-run"] + Emit(FnRunSpecs, FnRunValues(fn))
    ensures DistinctNames(FnRunSpecs)
  {
    var s, v := FnRunSpecs, FnRunValues(fn);
    EmitSix(s, v);
    FnRunWords(fn);
    Regroup(["--dry-run"], Words(s[0], v[0]), Words(s[1], v[1]), Words(s[2], v[2]),
      Words(s[3], v[3]), Words(s[4], v[4]), Words(s[5], v[5]));
  }

  /** Each `kpt fn run` flag contributes what the builder appends for it. */
  lemma FnRunWords(fn: KptFn)
    ensures var s, v := FnRunSpecs, FnRunValues(fn);
      && Words(s[0], v[0]) == (if fn.globalScope then ["--global-scope"] else [])
      && Words(s[1], v[1]) == (if |fn.mount| > 0 then ["--mount", Join(fn.mount, ',')] else [])
      && Words(s[2], v[2]) == (if fn.network then ["--network"] else [])
      && Words(s[3], v[3]) == Pair("--network-name", fn.networkName)
      && Words(s[4], v[4]) == Pair("--fn-path", fn.fnPath)
      && Words(s[5], v[5]) == Pair("--image", fn.image)
  {
  }

  /** A six-flag schema emits its flags' words in order. */
  lemma EmitSix(s: seq<FlagSpec>, v: seq<FlagValue>)
    requires AllFit(s, v) && |s| == 6
    ensures Emit(s, v) == Words(s[0], v[0]) + (Words(s[1], v[1]) + (Words(s[2], v[2])
      + (Words(s[3], v[3]) + (Words(s[4], v[4]) + Words(s[5], v[5])))))
  {
    assert Emit(s[5..], v[5..]) == Words(s[5], v[5]) by {
      assert s[5..][1..] == [];
    }
    assert Emit(s[4..], v[4..]) == Words(s[4], v[4]) + Emit(s[5..], v[5..]) by {
      assert s[4..][1..] == s[5..] && v[4..][1..] == v[5..];
    }
    assert Emit(s[3..], v[3..]) == Words(s[3], v[3]) + Emit(s[4..], v[4..]) by {
      assert s[3..][1..] == s[4..] && v[3..][1..] == v[4..];
    }
    assert Emit(s[2..], v[2..]) == Words(s[2], v[2]) + Emit(s[3..], v[3..]) by {
      assert s[2..][1..] == s[3..] && v[2..][1..] == v[3..];
    }
    assert Emit(s[1..], v[1..]) == Words(s[1], v[1]) + Emit(s[2..], v[2..]) by {
      assert s[1..][1..] == s[2..] && v[1..][1..] == v[2..];
    }
  }

  lemma Regroup(d: seq<string>, a: seq<string>, b: seq<string>, c: seq<string>, e: seq<string>, f: seq<string>, g: seq<string>)
    ensures d + a + b + c + e + f + g == d + (a + (b + (c + (e + (f + g)))))
  {
  }

  /** A successful vector names at most one function source: never both
      `--fn-path` and `--image`. */
  lemma FnRunArgsSingleSource(fn: KptFn)
    requires GetKptFnRunArgs(fn).Ok?
    ensures var v := ParseFnRunArgs(GetKptFnRunArgs(fn).value).value;
      v[4].Absent? || v[5].Absent?
  {
  }

  /** The mount list is joined verbatim, empty entries included. */
  lemma MountJoinExample()
    ensures Join(["foo", "", "bar"], ',') == "foo,,bar"
    ensures Split("foo,,bar", ',') == ["foo", "", "bar"]
  {
    SplitJoinInverse(["foo", "", "bar"], ',');
  }

  /** A mount list whose entries hold no comma can be recovered from the
      `--mount` value. */
  lemma MountRecoverable(fn: KptFn)
    requires |fn.mount| > 0
    requires forall i :: 0 <= i < |fn.mount| ==> ',' !in fn.mount[i]
    ensures Split(FnRunValues(fn)[1].value, ',') == fn.mount
  {
    SplitJoinInverse(fn.mount, ',');
  }

  // ---------------------------------------------------------------------------
  // kpt live apply / kpt live init

  const LiveApplySpecs: seq<FlagSpec> := [
    ValueFlag("--poll-period"), ValueFlag("--prune-propagation-policy"),
    ValueFlag("--prune-timeout"), ValueFlag("--reconcile-timeout")]

  function LiveApplyValues(o: KptApplyOptions): seq<FlagValue> {
    [ StringValue(o.pollPeriod), StringValue(o.prunePropagationPolicy),
      StringValue(o.pruneTimeout), StringValue(o.reconcileTimeout) ]
  }

  /** 1 for a set (non-empty) value, 0 for an unset one. */
  function IsSet(value: string): nat {
    if |value| > 0 then 1 else 0
  }

  /** `getKptLiveApplyArgs`: one flag/value pair per set option, in the fixed
      order; read back, it is exactly the configured options. */
  function GetKptLiveApplyArgs(o: KptApplyOptions): (flags: seq<string>)
    ensures ParseFlags(LiveApplySpecs, flags) == Some(LiveApplyValues(o))
    ensures |flags| == 2 * (IsSet(o.pollPeriod) + IsSet(o.prunePropagationPolicy) + IsSet(o.pruneTimeout) + IsSet(o.reconcileTimeout))
  {
    var flags := Pair("--poll-period", o.pollPeriod)
      + Pair("--prune-propagation-policy", o.prunePropagationPolicy)
      + Pair("--prune-timeout", o.pruneTimeout)
      + Pair("--reconcile-timeout", o.reconcileTimeout);
    LiveApplyArgsEmitted(o);
    ParseEmit(LiveApplySpecs, LiveApplyValues(o));
    flags
  }

  lemma LiveApplyArgsEmitted(o: KptApplyOptions)
    ensures AllFit(LiveApplySpecs, LiveApplyValues(o)) && DistinctNames(LiveApplySpecs)
    ensures Pair("--poll-period", o.pollPeriod)
      + Pair("--prune-propagation-policy", o.prunePropagationPolicy)
      + Pair("--prune-timeout", o.pruneTimeout)
      + Pair("--reconcile-timeout", o.reconcileTimeout)
      == Emit(LiveApplySpecs, LiveApplyValues(o))
  {
    var s, v := LiveApplySpecs, LiveApplyValues(o);
    var w0, w1, w2, w3 := Words(s[0], v[0]), Words(s[1], v[1]), Words(s[2], v[2]), Words(s[3], v[3]);
    assert Emit(s[3..], v[3..]) == w3 by {
      assert s[3..][1..] == [];
    }
    assert Emit(s[2..], v[2..]) == w2 + w3 by {
      assert s[2..][1..] == s[3..] && v[2..][1..] == v[3..];
    }
    assert Emit(s[1..], v[1..]) == w1 + (w2 + w3) by {
      assert s[1..][1..] == s[2..] && v[1..][1..] == v[2..];
    }
    assert Emit(s, v) == w0 + (w1 + (w2 + w3));
    assert w0 + w1 + w2 + w3 == w0 + (w1 + (w2 + w3));
  }

  const LiveInitSpecs: seq<FlagSpec> := [ValueFlag("--inventory-id"), ValueFlag("--namespace")]

  function LiveInitValues(inv: KptApplyInventory): seq<FlagValue> {
    [StringValue(inv.inventoryID), StringValue(inv.inventoryNamespace)]
  }

  /** `getKptLiveInitArgs`: `--inventory-id` and `--namespace`, each only when
      set; read back, it is exactly the configured values. */
  function GetKptLiveInitArgs(inv: KptApplyInventory): (flags: seq<string>)
    ensures ParseFlags(LiveInitSpecs, flags) == Some(LiveInitValues(inv))
    ensures |flags| == 2 * (IsSet(inv.inventoryID) + IsSet(inv.inventoryNamespace))
  {
    var flags := Pair("--inventory-id", inv.inventoryID) + Pair("--namespace", inv.inventoryNamespace);
    var s, v := LiveInitSpecs, LiveInitValues(inv);
    assert Emit(s[1..], v[1..]) == Words(s[1], v[1]) by {
      assert s[1..][1..] == [];
    }
    assert flags == Emit(s, v);
    ParseEmit(s, v);
    flags
  }

  /** Values are passed unvalidated: the `foo` policy and `bar` timeout go
      through as given. */
  lemma LiveApplyArgsExample()
    ensures GetKptLiveApplyArgs(KptApplyOptions("", "foo", "bar", ""))
         == ["--prune-propagation-policy", "foo", "--prune-timeout", "bar"]
  {
  }
}

=== FILE: kptconfig.dfy ===
/** The deployer's configuration records (the `kpt` section of a pipeline)
    and the fixed names the deployer uses on disk and in manifests.
    An empty string or empty list means "not set", as in the configuration
    schema. */
module KptConfig {

  const InventoryTemplate: string := "inventory-template.yaml"
  const KptHydrated: string := ".kpt-hydrated"
  const Pipeline: string := ".pipeline"
  const KptFnAnnotation: string := "config.kubernetes.io/function"
  const KptFnLocalConfig: string := "config.kubernetes.io/local-config"

  /** Path of the marker whose presence means `kpt live init` already ran. */
  const InventoryMarker: string := KptHydrated + "/" + InventoryTemplate

  /** Options of `kpt fn run`. */
  datatype KptFn = KptFn(
    fnPath: string,
    image: string,
    globalScope: bool,
    mount: seq<string>,
    network: bool,
    networkName: string)

  /** Where `kpt live` keeps its inventory. */
  datatype KptApplyInventory = KptApplyInventory(
    dir: string,
    inventoryID: string,
    inventoryNamespace: string)

  /** Options of `kpt live apply`; values are durations and policy names,
      passed through unvalidated. */
  datatype KptApplyOptions = KptApplyOptions(
    pollPeriod: string,
    prunePropagationPolicy: string,
    pruneTimeout: string,
    reconcileTimeout: string)

  datatype KptLive = KptLive(apply: KptApplyInventory, options: KptApplyOptions)

  datatype KptDeploy = KptDeploy(dir: string, fn: KptFn, live: KptLive)
}

=== FILE: manifests.dfy ===
/** Manifest documents as the deployer sees them, and `ExcludeKptFn`, which
    marks kpt function configurations as local so that `kpt live apply`
    does not deploy them. */
module Manifests {
  import opened Results
  import opened KptConfig

  /** One document of a manifest list. A document that parses is its
      annotation map plus the rest of its content, kept opaque; one that does
      not parse is kept as its raw text. */
  datatype Manifest =
    | Resource(annotations: map<string, string>, body: string)
    | Malformed(raw: string)

  /** The document is a kpt function configuration. */
  predicate IsKptFn(m: Manifest) {
    m.Resource? && KptFnAnnotation in m.annotations
  }

  /** The document already says whether it is local configuration. */
  predicate HasLocalConfig(m: Manifest) {
    m.Resource? && KptFnLocalConfig in m.annotations
  }

  /** The document is deployable as far as `kpt live apply` is concerned:
      it is not a kpt function, or it carries a local-config annotation. */
  predicate Settled(m: Manifest) {
    !IsKptFn(m) || HasLocalConfig(m)
  }

  /** The rewrite of one parsed document: a function configuration without a
      local-config annotation gains `local-config: "true"`. */
  function MarkLocalConfig(m: Manifest): Manifest
    requires m.Resource?
  {
    if Settled(m) then m
    else Resource(m.annotations[KptFnLocalConfig := "true"], m.body)
  }

  /** `ExcludeKptFn`: fails exactly when some document does not parse;
      otherwise keeps length and order, returns every settled document
      unchanged and adds `local-config: "true"` to every other one, keeping
      its other annotations and content. */
  function ExcludeKptFn(ms: seq<Manifest>): (r: Result<seq<Manifest>>)
    ensures r.Err? <==> exists i :: 0 <= i < |ms| && ms[i].Malformed?
    ensures r.Ok? ==> |r.value| == |ms|
    ensures r.Ok? ==> forall i :: 0 <= i < |ms| && Settled(ms[i]) ==> r.value[i] == ms[i]
    ensures r.Ok? ==> forall i :: 0 <= i < |ms| && !Settled(ms[i]) ==>
      && r.value[i].Resource?
      && r.value[i].body == ms[i].body
      && r.value[i].annotations.Keys == ms[i].annotations.Keys + {KptFnLocalConfig}
      && r.value[i].annotations[KptFnLocalConfig] == "true"
      && forall k :: k in ms[i].annotations ==> r.value[i].annotations[k] == ms[i].annotations[k]
    decreases |ms|
  {
    if |ms| == 0 then Ok([])
    else if ms[0].Malformed? then Err("unmarshaling config: " + ms[0].raw)
    else
      var tail :- ExcludeKptFn(ms[1..]);
      assert forall i :: 1 <= i < |ms| ==> ms[i] == ms[1..][i - 1];
      Ok([MarkLocalConfig(ms[0])] + tail)
  }

  /** After the filter every document is settled: no function configuration
      is left deployable. */
  lemma ExcludeKptFnSettles(ms: seq<Manifest>)
    requires ExcludeKptFn(ms).Ok?
    ensures forall i :: 0 <= i < |ms| ==> Settled(ExcludeKptFn(ms).value[i])
  {
  }

  /** Applying the filter twice is the same as applying it once. */
  lemma ExcludeKptFnIdempotent(ms: seq<Manifest>)
    requires ExcludeKptFn(ms).Ok?
    ensures ExcludeKptFn(ExcludeKptFn(ms).value) == ExcludeKptFn(ms)
  {
    var once := ExcludeKptFn(ms).value;
    ExcludeKptFnSettles(ms);
    var twice := ExcludeKptFn(once);
    assert twice.Ok?;
    assert forall i :: 0 <= i < |once| ==> twice.value[i] == once[i];
  }

  /** The example pipeline: a bare function gains the annotation, a function
      with `local-config: "false"` keeps it, and a pod passes through. */
  lemma ExcludeKptFnExample()
    ensures ExcludeKptFn([
      Resource(map[KptFnAnnotation := "fake"], "data: k1/v1"),
      Resource(map[KptFnAnnotation := "fake", KptFnLocalConfig := "false"], "data: k2/v2"),
      Resource(map[], "kind: Pod")])
    == Ok([
      Resource(map[KptFnAnnotation := "fake", KptFnLocalConfig := "true"], "data: k1/v1"),
      Resource(map[KptFnAnnotation := "fake", KptFnLocalConfig := "false"], "data: k2/v2"),
      Resource(map[], "kind: Pod")])
  {
    var fn1 := Resource(map[KptFnAnnotation := "fake"], "data: k1/v1");
    var fn2 := Resource(map[KptFnAnnotation := "fake", KptFnLocalConfig := "false"], "data: k2/v2");
    var pod := Resource(map[], "kind: Pod");
    var marked := Resource(map[KptFnAnnotation := "fake", KptFnLocalConfig := "true"], "data: k1/v1");
    var r := ExcludeKptFn([fn1, fn2, pod]);
    assert KptFnLocalConfig !in fn1.annotations;
    assert fn1.annotations[KptFnLocalConfig := "true"] == marked.annotations;
    var ms := [fn1, fn2, pod];
    assert Settled(ms[1]) && Settled(ms[2]) && !Settled(ms[0]);
    assert r.value[0] == Resource(fn1.annotations[KptFnLocalConfig := "true"], fn1.body);
    assert r.value[1] == fn2 && r.value[2] == pod;
    assert |r.value| == 3;
    assert r.value[0] == marked;
    assert r.value == [marked, fn2, pod];
  }
}

=== FILE: render.dfy ===
/** The stage skeleton of `renderManifests`: a fail-fast, linear
    composition. The external stages (subprocesses, file-system resets, image
    replacement, transforms, labelling) are inputs; the model fixes their
    order, which ones run, what each failure is wrapped with, and the
    short-circuit on an empty function output. */
module Render {
  import opened Results
  import opened Strs
  import opened KptConfig
  import opened KptArgs
  import opened Manifests

  datatype Stage =
    | Registry        // reading the debug helpers registry
    | RemoveWorkdir   // deleting .pipeline/<dir>
    | CreateWorkdir   // recreating .pipeline/<dir>
    | Source          // kpt fn source <dir>
    | Sink            // kpt fn sink .pipeline/<dir>
    | Kustomize       // kustomize build, when a kustomization exists
    | FnRun           // kpt fn run .pipeline
    | Exclude         // ExcludeKptFn
    | ReplaceImages   // replacing built images
    | Transform(index: nat)
    | SetLabels

  /** How an external step without output turned out. */
  datatype Status = Done | Failed(msg: string)

  /** A rewrite of a manifest list that may fail. */
  type Rewrite = seq<Manifest> -> Result<seq<Manifest>>

  /** What the collaborators of one render do. `kustomize` is `None` when no
      kustomization file sits directly under the directory. `fnRun` is the
      output of `kpt fn run`, split into documents. */
  datatype Externals = Externals(
    registry: Status,
    removeWorkdir: Status,
    createWorkdir: Status,
    source: Status,
    sink: Status,
    kustomize: Option<Status>,
    fnRun: Result<seq<Manifest>>,
    replaceImages: Rewrite,
    transforms: seq<Rewrite>,
    setLabels: Rewrite)

  /** The outcome of a render and how many stages of its plan it attempted. */
  datatype Run = Run(result: Result<seq<Manifest>>, attempted: nat)

  /** The context an error of each stage is wrapped with; a labelling error
      is returned as it is. */
  function Context(s: Stage): string {
    match s
    case Registry => "retrieving debug helpers registry: "
    case RemoveWorkdir => "deleting temporary directory "
    case CreateWorkdir => "creating temporary directory "
    case Source => "reading config manifests: "
    case Sink => "reading config manifests: "
    case Kustomize => "kustomize build: "
    case FnRun => "running kpt functions: "
    case Exclude => "exclude kpt fn from manipulated resources: "
    case ReplaceImages => "replacing images in manifests: "
    case Transform(_) => "unable to transform manifests: "
    case SetLabels => ""
  }

  function TransformStages(from: nat, n: nat): (ts: seq<Stage>)
    ensures |ts| == n
    ensures forall i :: 0 <= i < n ==> ts[i] == Transform(from + i)
    decreases n
  {
    if n == 0 then [] else [Transform(from)] + TransformStages(from + 1, n - 1)
  }

  /** The stages before `kpt fn run`; kustomize runs only when a
      kustomization file exists. */
  function Preparation(x: Externals): seq<Stage> {
    [Registry, RemoveWorkdir, CreateWorkdir, Source, Sink]
      + (if x.kustomize.Some? then [Kustomize] else [])
  }

  /** The stages after `kpt fn run`: the filter before image replacement,
      then the transforms, labelling last. */
  function Finishing(x: Externals): seq<Stage> {
    [Exclude, ReplaceImages] + TransformStages(0, |x.transforms|) + [SetLabels]
  }

  /** Every stage a render can run, in order. */
  function Plan(x: Externals): seq<Stage> {
    Preparation(x) + [FnRun] + Finishing(x)
  }

  /** Every stage before `kpt fn run` succeeds. */
  predicate PreparationSucceeds(x: Externals) {
    && x.registry.Done?
    && x.removeWorkdir.Done?
    && x.createWorkdir.Done?
    && x.source.Done?
    && x.sink.Done?
    && (x.kustomize.None? || x.kustomize.value.Done?)
  }

  /** The statuses of the preparation stages, in plan order. */
  function PreparationStatuses(x: Externals): (st: seq<Status>)
    ensures |st| == |Preparation(x)|
  {
    [x.registry, x.removeWorkdir, x.createWorkdir, x.source, x.sink]
      + (if x.kustomize.Some? then [x.kustomize.value] else [])
  }

  /** The index of the first failed status, or `|st|` when all succeeded. */
  function FirstFailure(st: seq<Status>): (i: nat)
    ensures i <= |st|
    ensures forall j :: 0 <= j < i ==> st[j].Done?
    ensures i < |st| ==> st[i].Failed?
  {
    if |st| == 0 then 0
    else if st[0].Failed? then 0
    else 1 + FirstFailure(st[1..])
  }

  /** `kpt fn run`: the flags are checked before the process is started. */
  function RunFunctions(k: KptDeploy, fnRun: Result<seq<Manifest>>): (r: Result<seq<Manifest>>)
    ensures GetKptFnRunArgs(k.fn).Err? ==> r.Err? && StartsWith(r.msg, "getting kpt fn run args: ")
    ensures GetKptFnRunArgs(k.fn).Err? ==>
      r == Err("getting kpt fn run args: " + GetKptFnRunArgs(k.fn).msg)
    ensures GetKptFnRunArgs(k.fn).Ok? ==> r == fnRun
  {
    var flags := GetKptFnRunArgs(k.fn);
    if flags.Err? then Err("getting kpt fn run args: " + flags.msg)
    else fnRun
  }

  /** The outcome of the transforms and how many of them ran. */
  datatype TransformRun = TransformRun(result: Result<seq<Manifest>>, attempted: nat)

  /** Applies the transforms in order, stopping at the first that fails. */
  function ApplyTransforms(ms: seq<Manifest>, fs: seq<Rewrite>): (t: TransformRun)
    ensures t.attempted <= |fs|
    ensures t.result.Ok? ==> t.attempted == |fs|
    ensures t.result.Err? ==> t.attempted > 0 && StartsWith(t.result.msg, Context(Transform(0)))
    ensures |fs| == 0 ==> t.result == Ok(ms)
    decreases |fs|
  {
    if |fs| == 0 then TransformRun(Ok(ms), 0)
    else
      var out := fs[0](ms);
      if out.Err? then TransformRun(Err(Context(Transform(0)) + out.msg), 1)
      else
        var rest := ApplyTransforms(out.value, fs[1..]);
        TransformRun(rest.result, rest.attempted + 1)
  }

  /** The stages after `kpt fn run`, on its non-empty output; `attempted`
      counts the finishing stages that ran. Each stage receives what the one
      before it produced, and an error at a stage means every earlier stage
      succeeded. */
  function Finish(ms: seq<Manifest>, x: Externals): (t: TransformRun)
    ensures 0 < t.attempted <= |Finishing(x)|
    ensures t.result.Err? ==> StartsWith(t.result.msg, Context(Finishing(x)[t.attempted - 1]))
    ensures t.result.Ok? ==> t.attempted == |Finishing(x)|
    ensures t.attempted == 1 <==> ExcludeKptFn(ms).Err?
    ensures t.attempted == 1 ==> t.result == Err(Context(Exclude) + ExcludeKptFn(ms).msg)
    ensures t.attempted == 2 ==> exists a ::
      && ExcludeKptFn(ms) == Ok(a)
      && x.replaceImages(a).Err?
      && t.result == Err(Context(ReplaceImages) + x.replaceImages(a).msg)
    ensures 2 < t.attempted < |Finishing(x)| ==> exists a, b ::
      && ExcludeKptFn(ms) == Ok(a)
      && x.replaceImages(a) == Ok(b)
      && ApplyTransforms(b, x.transforms) == TransformRun(t.result, t.attempted - 2)
      && t.result.Err?
    ensures t.attempted == |Finishing(x)| ==> exists a, b, c ::
      && ExcludeKptFn(ms) == Ok(a)
      && x.replaceImages(a) == Ok(b)
      && ApplyTransforms(b, x.transforms).result == Ok(c)
      && t.result == x.setLabels(c)
  {
    var filtered := ExcludeKptFn(ms);
    if filtered.Err? then TransformRun(Err(Context(Exclude) + filtered.msg), 1)
    else
      var replaced := x.replaceImages(filtered.value);
      if replaced.Err? then TransformRun(Err(Context(ReplaceImages) + replaced.msg), 2)
      else
        var transformed := ApplyTransforms(replaced.value, x.transforms);
        if transformed.result.Err? then
          assert Finishing(x)[2 + transformed.attempted - 1] == Transform(transformed.attempted - 1);
          TransformRun(transformed.result, 2 + transformed.attempted)
        else
          TransformRun(x.setLabels(transformed.result.value), 3 + |x.transforms|)
  }

  /** The work directory path the file-system errors name. */
  function Workdir(k: KptDeploy): string {
    Pipeline + "/" + k.dir
  }

  /** The error of the first failed preparation stage. */
  function PreparationError(k: KptDeploy, x: Externals, failed: nat): (msg: string)
    requires failed < |Preparation(x)| && PreparationStatuses(x)[failed].Failed?
    ensures StartsWith(msg, Context(Preparation(x)[failed]))
    ensures EndsWith(msg, PreparationStatuses(x)[failed].msg)
    ensures Preparation(x)[failed] in {RemoveWorkdir, CreateWorkdir} ==>
      StartsWith(msg, Context(Preparation(x)[failed]) + Workdir(k) + ": ")
    ensures Preparation(x)[failed] in {RemoveWorkdir, CreateWorkdir} ==>
      msg == Context(Preparation(x)[failed]) + Workdir(k) + ": " + PreparationStatuses(x)[failed].msg
    ensures Preparation(x)[failed] !in {RemoveWorkdir, CreateWorkdir} ==>
      msg == Context(Preparation(x)[failed]) + PreparationStatuses(x)[failed].msg
  {
    var stage := Preparation(x)[failed];
    var cause := PreparationStatuses(x)[failed].msg;
    Context(stage) + (if stage == RemoveWorkdir || stage == CreateWorkdir then Workdir(k) + ": " + cause else cause)
  }

  /** The render from `kpt fn run` on, once every preparation stage has
      succeeded. */
  function RenderFromFunctions(k: KptDeploy, x: Externals): (run: Run)
    requires PreparationSucceeds(x)
    ensures |Preparation(x)| < run.attempted <= |Plan(x)|
    ensures run.result.Err? ==> StartsWith(run.result.msg, Context(Plan(x)[run.attempted - 1]))
    ensures run.result.Ok? ==>
      || run.attempted == |Plan(x)|
      || (Plan(x)[run.attempted - 1] == FnRun && run.result.value == [])
    ensures RunFunctions(k, x.fnRun).Err? ==>
      run == Run(Err(Context(FnRun) + RunFunctions(k, x.fnRun).msg), |Preparation(x)| + 1)
    ensures RunFunctions(k, x.fnRun) == Ok([]) ==> run == Run(Ok([]), |Preparation(x)| + 1)
    ensures RunFunctions(k, x.fnRun).Ok? && RunFunctions(k, x.fnRun).value != [] ==>
      var t := Finish(RunFunctions(k, x.fnRun).value, x);
      run == Run(t.result, |Preparation(x)| + 1 + t.attempted)
  {
    var n := |Preparation(x)|;
    var fnOut := RunFunctions(k, x.fnRun);
    if fnOut.Err? then Run(Err(Context(FnRun) + fnOut.msg), n + 1)
    else if |fnOut.value| == 0 then Run(Ok([]), n + 1)
    else
      var t := Finish(fnOut.value, x);
      assert Plan(x)[n + 1 + t.attempted - 1] == Finishing(x)[t.attempted - 1];
      Run(t.result, n + 1 + t.attempted)
  }

  /** `renderManifests`. A run attempts a prefix of the plan and stops at the
      first failure, whose error carries that stage's context. A successful
      run either ran the whole plan, labelling last, or stopped after
      `kpt fn run` produced no documents and returned an empty list. The
      first failed preparation stage ends the run; otherwise the output of
      `kpt fn run` (or its error) decides what follows. */
  function RenderManifests(k: KptDeploy, x: Externals): (run: Run)
    ensures 0 < run.attempted <= |Plan(x)|
    ensures run.result.Err? ==> StartsWith(run.result.msg, Context(Plan(x)[run.attempted - 1]))
    ensures run.result.Ok? ==>
      || run.attempted == |Plan(x)|
      || (Plan(x)[run.attempted - 1] == FnRun && run.result.value == [])
    ensures run.attempted > |Preparation(x)| <==> PreparationSucceeds(x)
    ensures var failed := FirstFailure(PreparationStatuses(x));
      failed < |Preparation(x)| ==> run == Run(Err(PreparationError(k, x, failed)), failed + 1)
    ensures PreparationSucceeds(x) && RunFunctions(k, x.fnRun).Err? ==>
      run == Run(Err(Context(FnRun) + RunFunctions(k, x.fnRun).msg), |Preparation(x)| + 1)
    ensures PreparationSucceeds(x) && RunFunctions(k, x.fnRun) == Ok([]) ==>
      run == Run(Ok([]), |Preparation(x)| + 1)
    ensures PreparationSucceeds(x) && RunFunctions(k, x.fnRun).Ok? && RunFunctions(k, x.fnRun).value != [] ==>
      var t := Finish(RunFunctions(k, x.fnRun).value, x);
      run == Run(t.result, |Preparation(x)| + 1 + t.attempted)
  {
    var failed := FirstFailure(PreparationStatuses(x));
    PreparationSucceedsAt(x);
    if failed < |Preparation(x)| then
      Run(Err(PreparationError(k, x, failed)), failed + 1)
    else
      RenderFromFunctions(k, x)
  }

  /** The preparation succeeds exactly when none of its statuses failed. */
  lemma PreparationSucceedsAt(x: Externals)
    ensures PreparationSucceeds(x) <==> FirstFailure(PreparationStatuses(x)) == |Preparation(x)|
  {
    var st := PreparationStatuses(x);
    if PreparationSucceeds(x) {
      assert forall j :: 0 <= j < |st| ==> st[j].Done?;
    }
    if FirstFailure(st) == |st| {
      assert st[0].Done? && st[1].Done? && st[2].Done? && st[3].Done? && st[4].Done?;
      assert x.kustomize.Some? ==> st[5].Done?;
    }
  }

  /** One transform: its output, or its error wrapped with the transform
      context. */
  lemma ApplyTransformsSingle(ms: seq<Manifest>, f: Rewrite)
    ensures ApplyTransforms(ms, [f]).attempted == 1
    ensures ApplyTransforms(ms, [f]).result
         == if f(ms).Err? then Err(Context(Transform(0)) + f(ms).msg) else f(ms)
  {
    if f(ms).Ok? {
      assert [f][1..] == [];
    }
  }

  /** Running two lists of transforms is running the first and, when it
      succeeds, the second on its output: the loop over the registered
      transforms is a left fold that stops at the first error. */
  lemma {:induction false} ApplyTransformsAppend(ms: seq<Manifest>, fs: seq<Rewrite>, gs: seq<Rewrite>)
    ensures var first := ApplyTransforms(ms, fs);
      first.result.Err? ==> ApplyTransforms(ms, fs + gs) == first
    ensures var first := ApplyTransforms(ms, fs);
      first.result.Ok? ==>
        var second := ApplyTransforms(first.result.value, gs);
        ApplyTransforms(ms, fs + gs) == TransformRun(second.result, |fs| + second.attempted)
    decreases |fs|
  {
    if |fs| == 0 {
      assert fs + gs == gs;
    } else {
      var out := fs[0](ms);
      assert (fs + gs)[0] == fs[0];
      assert (fs + gs)[1..] == fs[1..] + gs;
      if out.Ok? {
        ApplyTransformsAppend(out.value, fs[1..], gs);
      }
    }
  }

  /** Transforms that leave their input alone leave the manifests alone. */
  lemma {:induction false} IdentityTransforms(ms: seq<Manifest>, fs: seq<Rewrite>)
    requires forall i, m :: 0 <= i < |fs| ==> fs[i](m) == Ok(m)
    ensures ApplyTransforms(ms, fs) == TransformRun(Ok(ms), |fs|)
    decreases |fs|
  {
    if |fs| != 0 {
      assert fs[0](ms) == Ok(ms);
      IdentityTransforms(ms, fs[1..]);
    }
  }

  /** A failing `kpt fn sink` after a successful source ends the render at
      the fifth stage, with the reading context; nothing later runs. */
  lemma SinkFailureStopsRender(k: KptDeploy, x: Externals)
    requires x.registry.Done? && x.removeWorkdir.Done? && x.createWorkdir.Done? && x.source.Done?
    requires x.sink.Failed?
    ensures RenderManifests(k, x) == Run(Err(Context(Sink) + x.sink.msg), 5)
  {
    var st := PreparationStatuses(x);
    assert st[..5] == [x.registry, x.removeWorkdir, x.createWorkdir, x.source, x.sink];
    assert st[4].Failed?;
    assert FirstFailure(st) == 4 by {
      assert st[0].Done? && st[1].Done? && st[2].Done? && st[3].Done?;
    }
  }

  /** When `kpt fn run` produces no documents, the render stops right after
      it with an empty list, whatever the later stages would do. */
  lemma EmptyOutputShortCircuits(k: KptDeploy, x: Externals)
    requires PreparationSucceeds(x)
    requires GetKptFnRunArgs(k.fn).Ok? && x.fnRun == Ok([])
    ensures RenderManifests(k, x) == Run(Ok([]), |Preparation(x)| + 1)
  {
    PreparationSucceedsAt(x);
  }

  /** A deployer naming both a function directory and a function image fails
      at the `kpt fn run` stage, before any function output is read. */
  lemma BothFunctionSourcesFail(k: KptDeploy, x: Externals)
    requires PreparationSucceeds(x)
    requires k.fn.fnPath != "" && k.fn.image != ""
    ensures RenderManifests(k, x).result.Err?
    ensures StartsWith(RenderManifests(k, x).result.msg, Context(FnRun) + "getting kpt fn run args: ")
    ensures RenderManifests(k, x).attempted == |Preparation(x)| + 1
  {
    PreparationSucceedsAt(x);
  }

  /** With no function configurations among the output, image replacement
      and labelling that change nothing, and transforms that change nothing,
      a render returns exactly what `kpt fn run` printed. */
  lemma SettledOutputPassesThrough(k: KptDeploy, x: Externals)
    requires PreparationSucceeds(x)
    requires GetKptFnRunArgs(k.fn).Ok? && x.fnRun.Ok?
    requires forall i :: 0 <= i < |x.fnRun.value| ==> x.fnRun.value[i].Resource? && Settled(x.fnRun.value[i])
    requires forall m :: x.replaceImages(m) == Ok(m) && x.setLabels(m) == Ok(m)
    requires forall i, m :: 0 <= i < |x.transforms| ==> x.transforms[i](m) == Ok(m)
    ensures RenderManifests(k, x).result == x.fnRun
    ensures |x.fnRun.value| > 0 ==> RenderManifests(k, x).attempted == |Plan(x)|
  {
    PreparationSucceedsAt(x);
    var ms := x.fnRun.value;
    if |ms| > 0 {
      var filtered := ExcludeKptFn(ms);
      assert filtered.Ok?;
      assert forall i :: 0 <= i < |ms| ==> filtered.value[i] == ms[i];
      assert filtered.value == ms;
      IdentityTransforms(ms, x.transforms);
    }
  }
}

=== FILE: results.dfy ===
/** The model's error values: the optional result of a parser, and a result
    that is either a value or an error message (Go's `error`). Both support
    `:-` so that a failure is passed straight back to the caller. */
module Results {

  datatype Option<+T> = None | Some(value: T) {
    predicate IsFailure() {
      None?
    }

    function PropagateFailure<U>(): Option<U>
      requires None?
    {
      None
    }

    function Extract(): T
      requires Some?
    {
      value
    }
  }

  datatype Result<+T> = Ok(value: T) | Err(msg: string) {
    predicate IsFailure() {
      Err?
    }

    function PropagateFailure<U>(): Result<U>
      requires Err?
    {
      Err(msg)
    }

    function Extract(): T
      requires Ok?
    {
      value
    }
  }

  /** `s` begins with `prefix`. */
  predicate StartsWith(s: string, prefix: string) {
    |prefix| <= |s| && s[..|prefix|] == prefix
  }
}

=== FILE: stringset.dfy ===
/** The deployer's string set: a set of paths listed in Go's string order.
    It is kept as a strictly increasing sequence, so inserting removes
    duplicates and listing it is the sequence itself. */
module StringSets {

  /** Go's `a < b` on strings: byte-wise lexicographic order. UTF-8 keeps
      code-point order, so comparing characters gives the same answer. */
  predicate Less(a: string, b: string) {
    if |b| == 0 then false
    else if |a| == 0 then true
    else if a[0] != b[0] then a[0] < b[0]
    else Less(a[1..], b[1..])
  }

  lemma {:induction false} LessIrreflexive(a: string)
    ensures !Less(a, a)
  {
    if |a| > 0 {
      LessIrreflexive(a[1..]);
    }
  }

  lemma {:induction false} LessTransitive(a: string, b: string, c: string)
    requires Less(a, b) && Less(b, c)
    ensures Less(a, c)
  {
    if |a| > 0 && a[0] == b[0] && b[0] == c[0] {
      LessTransitive(a[1..], b[1..], c[1..]);
    }
  }

  /** Any two different strings are ordered one way or the other. */
  lemma {:induction false} LessTotal(a: string, b: string)
    requires a != b
    ensures Less(a, b) || Less(b, a)
  {
    if |a| > 0 && |b| > 0 && a[0] == b[0] {
      assert a == [a[0]] + a[1..] && b == [b[0]] + b[1..];
      LessTotal(a[1..], b[1..]);
    }
  }

  /** Every element comes strictly before every later one. */
  predicate StrictlySorted(xs: seq<string>) {
    forall i, j :: 0 <= i < j < |xs| ==> Less(xs[i], xs[j])
  }

  /** A strictly sorted list has no duplicates. */
  lemma SortedDistinct(xs: seq<string>)
    requires StrictlySorted(xs)
    ensures forall i, j :: 0 <= i < j < |xs| ==> xs[i] != xs[j]
  {
    forall i, j | 0 <= i < j < |xs|
      ensures xs[i] != xs[j]
    {
      LessIrreflexive(xs[i]);
    }
  }

  /** `insert` of one path. */
  function InsertOne(acc: seq<string>, x: string): (r: seq<string>)
    requires StrictlySorted(acc)
    ensures StrictlySorted(r)
    ensures forall p :: p in r <==> p in acc || p == x
    decreases |acc|
  {
    if |acc| == 0 then [x]
    else if x == acc[0] then acc
    else if Less(x, acc[0]) then
      assert forall j :: 0 <= j < |acc| ==> Less(x, acc[j]) by {
        forall j | 0 <= j < |acc|
          ensures Less(x, acc[j])
        {
          if j > 0 {
            LessTransitive(x, acc[0], acc[j]);
          }
        }
      }
      [x] + acc
    else
      LessTotal(x, acc[0]);
      var rest := InsertOne(acc[1..], x);
      assert forall p :: p in acc <==> p == acc[0] || p in acc[1..] by {
        assert acc == [acc[0]] + acc[1..];
      }
      assert forall j :: 0 <= j < |rest| ==> Less(acc[0], rest[j]) by {
        forall j | 0 <= j < |rest|
          ensures Less(acc[0], rest[j])
        {
          if rest[j] != x {
            assert rest[j] in acc[1..];
            var k :| 0 <= k < |acc| - 1 && acc[1..][k] == rest[j];
            assert acc[k + 1] == rest[j];
          }
        }
      }
      [acc[0]] + rest
  }

  /** `insert` of several paths, one after the other. */
  function InsertAll(acc: seq<string>, xs: seq<string>): (r: seq<string>)
    requires StrictlySorted(acc)
    ensures StrictlySorted(r)
    ensures forall p :: p in r <==> p in acc || p in xs
    decreases |xs|
  {
    if |xs| == 0 then acc
    else
      assert forall p :: p in xs <==> p == xs[0] || p in xs[1..] by {
        assert xs == [xs[0]] + xs[1..];
      }
      InsertAll(InsertOne(acc, xs[0]), xs[1..])
  }

  /** A strictly sorted list is determined by its elements: the listing of
      a set does not depend on the order of insertion. */
  lemma {:induction false} SortedUnique(a: seq<string>, b: seq<string>)
    requires StrictlySorted(a) && StrictlySorted(b)
    requires forall p :: p in a <==> p in b
    ensures a == b
    decreases |a|
  {
    if |b| > 0 {
      assert b[0] in a;
    }
    if |a| != 0 {
      assert a[0] in b;
      assert |b| > 0;
      if a[0] != b[0] {
        assert b[0] in a;
        var i :| 0 < i < |a| && a[i] == b[0];
        var j :| 0 < j < |b| && b[j] == a[0];
        LessTransitive(a[0], b[0], a[0]);
        LessIrreflexive(a[0]);
      }
      forall p
        ensures p in a[1..] <==> p in b[1..]
      {
        if p in a[1..] {
          var i :| 0 < i < |a| && a[i] == p;
          LessIrreflexive(p);
          assert p != b[0];
          assert p in b;
        }
        if p in b[1..] {
          var j :| 0 < j < |b| && b[j] == p;
          LessIrreflexive(p);
          assert p != a[0];
          assert p in a;
        }
      }
      SortedUnique(a[1..], b[1..]);
      assert a == [a[0]] + a[1..] && b == [b[0]] + b[1..];
    }
  }
}

=== FILE: strs.dfy ===
/** Go's `strings.Split` and `strings.Join` for a one-character separator,
    with the round-trip laws that relate them. */
module Strs {

  /** `strings.Split(s, string(sep))`: the pieces of `s` around every
      occurrence of `sep`; the empty string gives one empty piece. */
  function Split(s: string, sep: char): (parts: seq<string>)
    ensures |parts| >= 1
    ensures forall i :: 0 <= i < |parts| ==> sep !in parts[i]
    ensures Join(parts, sep) == s
  {
    if |s| == 0 then [""]
    else
      var rest := Split(s[1..], sep);
      if s[0] == sep then
        assert Join([""] + rest, sep) == [sep] + Join(rest, sep);
        [""] + rest
      else
        var parts := [[s[0]] + rest[0]] + rest[1..];
        assert parts[1..] == rest[1..];
        assert rest == [rest[0]] + rest[1..];
        parts
  }

  /** `strings.Join(xs, string(sep))`. */
  function Join(xs: seq<string>, sep: char): string {
    if |xs| == 0 then ""
    else if |xs| == 1 then xs[0]
    else xs[0] + [sep] + Join(xs[1..], sep)
  }

  /** Every piece of every string of `xs`, split on `sep`, in order. */
  function SplitAll(xs: seq<string>, sep: char): seq<string> {
    if |xs| == 0 then [] else Split(xs[0], sep) + SplitAll(xs[1..], sep)
  }

  predicate EndsWith(s: string, suffix: string) {
    |suffix| <= |s| && s[|s| - |suffix|..] == suffix
  }

  /** Joining two non-empty lists puts exactly one separator between them. */
  lemma {:induction false} JoinAppend(a: seq<string>, b: seq<string>, sep: char)
    requires |a| > 0 && |b| > 0
    ensures Join(a + b, sep) == Join(a, sep) + [sep] + Join(b, sep)
  {
    if |a| == 1 {
      assert (a + b)[1..] == b;
    } else {
      assert (a + b)[1..] == a[1..] + b;
      JoinAppend(a[1..], b, sep);
    }
  }

  /** Joining two lists, either of which may be empty. */
  lemma JoinConcat(a: seq<string>, b: seq<string>, sep: char)
    ensures Join(a + b, sep) ==
      if |a| == 0 then Join(b, sep)
      else if |b| == 0 then Join(a, sep)
      else Join(a, sep) + [sep] + Join(b, sep)
  {
    if |a| == 0 {
      assert a + b == b;
    } else if |b| == 0 {
      assert a + b == a;
    } else {
      JoinAppend(a, b, sep);
    }
  }

  lemma {:induction false} SplitAllAppend(a: seq<string>, b: seq<string>, sep: char)
    ensures SplitAll(a + b, sep) == SplitAll(a, sep) + SplitAll(b, sep)
  {
    if |a| == 0 {
      assert a + b == b;
    } else {
      assert (a + b)[1..] == a[1..] + b;
      SplitAllAppend(a[1..], b, sep);
    }
  }

  /** A string without the separator splits into itself. */
  lemma {:induction false} SplitNoSep(s: string, sep: char)
    requires sep !in s
    ensures Split(s, sep) == [s]
  {
    if |s| > 0 {
      assert sep !in s[1..];
      SplitNoSep(s[1..], sep);
    }
  }

  /** Splitting a string that has a separator spliced into it splits both
      halves independently. */
  lemma {:induction false} SplitAround(a: string, b: string, sep: char)
    ensures Split(a + [sep] + b, sep) == Split(a, sep) + Split(b, sep)
  {
    if |a| == 0 {
      assert a + [sep] + b == [sep] + b;
      assert ([sep] + b)[1..] == b;
    } else {
      assert (a + [sep] + b)[1..] == a[1..] + [sep] + b;
      SplitAround(a[1..], b, sep);
    }
  }

  /** Splitting the joined list yields the pieces of every element in order:
      `Split` undoes `Join` up to splitting the elements themselves. */
  lemma {:induction false} SplitJoin(xs: seq<string>, sep: char)
    requires |xs| > 0
    ensures Split(Join(xs, sep), sep) == SplitAll(xs, sep)
  {
    if |xs| == 1 {
      assert SplitAll(xs[1..], sep) == [];
    } else {
      SplitJoin(xs[1..], sep);
      SplitAround(xs[0], Join(xs[1..], sep), sep);
    }
  }

  /** When no element contains the separator, `Split` exactly inverts `Join`. */
  lemma {:induction false} SplitJoinInverse(xs: seq<string>, sep: char)
    requires |xs| > 0
    requires forall i :: 0 <= i < |xs| ==> sep !in xs[i]
    ensures Split(Join(xs, sep), sep) == xs
  {
    SplitJoin(xs, sep);
    SplitAllOfAtoms(xs, sep);
  }

  lemma {:induction false} SplitAllOfAtoms(xs: seq<string>, sep: char)
    requires forall i :: 0 <= i < |xs| ==> sep !in xs[i]
    ensures SplitAll(xs, sep) == xs
  {
    if |xs| > 0 {
      SplitNoSep(xs[0], sep);
      SplitAllOfAtoms(xs[1..], sep);
      assert xs == [xs[0]] + xs[1..];
    }
  }

  /** Splitting every element and re-joining gives back the joined list. */
  lemma {:induction false} JoinSplitAll(xs: seq<string>, sep: char)
    ensures Join(SplitAll(xs, sep), sep) == Join(xs, sep)
    ensures |SplitAll(xs, sep)| == 0 <==> |xs| == 0
  {
    if |xs| > 0 {
      JoinSplitAll(xs[1..], sep);
      var head := Split(xs[0], sep);
      var tail := SplitAll(xs[1..], sep);
      JoinConcat(head, tail, sep);
      if |xs| > 1 {
        assert xs == [xs[0]] + xs[1..];
        JoinConcat([xs[0]], xs[1..], sep);
      }
    }
  }
}
